=== FILE: README.md ===
# Cedarling search-response filter: a Dafny model

This project models the core of an OpenSearch search-pipeline plugin. For each search, the
plugin asks the Cedarling policy engine whether the caller may see each hit, and drops the hits
it denies. The model covers four pieces.

- **The response processor** (`CedarlingSearchResponseProcessor.processResponse` and
  `appendExtraAttributes`), in module `ResponseProcessor`. It reads the settings, then checks
  the request's `ext` block. It enriches each hit's source map with `type`, `entity_type` and
  `id`, then calls `authorize` once per hit. A hit is kept when the engine allows it, or when the
  call throws (fail-open). The processor then rebuilds the response with the kept hits and adds
  an ext section with `authorized_hits_count` and `average_decision_time`. It also increases
  `took` by its own running time. The model is a pure function over the response. The policy
  engine is a function parameter `AuthzRequest -> Decision`, where `Failed` stands for an
  exception. Measured call times and the processor's elapsed time are inputs. `DecideAll` is
  the loop as written, and it is proved equal to the reference definitions `Kept` and
  `DecisionTime`.
- **The settings cache** (`SettingsService`), in module `SettingsCache`. It is a state machine
  over the cached `Option<PluginSettings>`, and it reads two cluster-setting entries: the
  version `plugins.cedarling.updatedAt` and the JSON payload `plugins.cedarling.settings`.
  `GetSettings` reloads when nothing is cached. It also reloads when the store holds a positive
  version strictly newer than the cached one. `Reload` returns the new cache, plus the bootstrap
  properties handed to the engine's `init`. A small class holds the cache as the singleton does.
- **Settings validation** (`PluginSettings.from`, `asMap`), in module `Settings`.
- **The request's `tbac` ext block** (`CedarlingSearchExtBuilder`), in module `SearchExt`. This
  covers first-match selection from a list, structural equality, the hash code, field emission
  and the registered name.

Several behaviours of the code are worth stating up front; the model keeps each as written.

- A payload that parses but fails validation empties the cache instead of keeping the previous
  snapshot. `pluginSettings = PluginSettings.from(job, lastUpdated)` assigns null, and the null
  dereference on `init` that follows is swallowed (`SettingsService.java:67-72`).
  `RejectedPayloadDropsSnapshot` states this. `RejectedPayloadFailsSearches` states the
  consequence: every search then fails on `isEnabled()` on null, until a valid payload is stored.
- A payload that is not JSON throws at `SettingsService.java:59-60`, before the assignment, so
  the cache is untouched (`MalformedPayloadKeepsSnapshot`).
- `processResponse` casts the first ext builder rather than calling `fromExtBuilderList`. A
  request whose first ext block belongs to another plugin therefore fails, even when a `tbac`
  block follows (`FirstExtMustBeCedarling`).
- `PluginSettings` has no `isSkipHits()` getter, although the processor calls one. The
  `skipHits` flag is therefore an explicit input of `ProcessResponse`.
- The null checks on `searchActionName` and `schemaPrefix` can never fire. org.json's
  `optString` returns `""` for an absent or null key. `OptString` is proved to return a value
  every time, and `From` is proved to reject exactly the documents whose `bootstrapProperties`
  is not an object.
- A null index is rendered as `"null"` in the `type` attribute (Java string concatenation). A
  null source map or a null id makes the enrichment throw inside the try-block, so the hit is
  kept and no time is counted.

## Model

| member | source | states |
|---|---|---|
| `ResponseProcessor.ProcessResponse` | src/main/java/io/jans/cedarling/opensearch/CedarlingSearchResponseProcessor.java:49-136 | Null settings fail. Disabled settings, or a request without ext, return the response unchanged. A first ext builder of another kind fails. With a `tbac` first builder the call succeeds iff there are no hits, or both `tokens` and `context` are absent, null or objects; otherwise it fails with the `tokens` cast error first, then the `context` one. On success `took` grows by exactly the elapsed time. Every response field except sections, took and ext is copied, every section except hits and profile is copied, and the hit metadata is copied. Zero hits keep the sections and report count 0 and average -1. With hits, the count is at most the number of hits and the average is non-negative. Under `skipHits` the returned array is empty; otherwise its length is the count. |
| `ResponseProcessor.Call` | src/main/java/io/jans/cedarling/opensearch/CedarlingSearchResponseProcessor.java:85-101 | A hit with a null source or null id counts as a thrown call. Otherwise the outcome is the engine's answer to one request carrying the shared tokens, action and context (the `tbac.context` map rebuilt by `new JSONObject`, so without null entries), and a resource that is the hit's source with `type`, `entity_type` and `id` set from the hit. |
| `Json.Wrap` | src/main/java/io/jans/cedarling/opensearch/CedarlingSearchResponseProcessor.java:79-80 | Rebuilding a value keeps its kind both ways, and an array keeps its length. An object loses exactly its null-valued entries. The result has no null-valued entry at any depth. A value that already has none comes back unchanged, and so does every scalar. |
| `Json.ObjectOf` | src/main/java/io/jans/cedarling/opensearch/CedarlingSearchResponseProcessor.java:79-80 | `new JSONObject(map)` keeps a key iff its value is not null, and adds none. A kept value with no null entries inside reaches the engine unchanged. Every kept value is free of null entries. |
| `Json.WrapIdempotent` | src/main/java/io/jans/cedarling/opensearch/CedarlingSearchResponseProcessor.java:79-80 | Rebuilding an already rebuilt value changes nothing. |
| `ResponseProcessor.ParamObject` | src/main/java/io/jans/cedarling/opensearch/CedarlingSearchResponseProcessor.java:77-80 | The parameter reads as a map iff it is absent, null or an object: absent or null give the empty map, an object gives itself. Any other value fails with the given cast error. |
| `ResponseProcessor.DecideAll` | src/main/java/io/jans/cedarling/opensearch/CedarlingSearchResponseProcessor.java:82-102 | The per-hit loop keeps exactly the reference filter of the hits by the fail-open policy. Its time total is the reference sum over the calls that returned. |
| `ResponseProcessor.Enrich` | src/main/java/io/jans/cedarling/opensearch/CedarlingSearchResponseProcessor.java:140-150 | The attributes sent to the engine are the source map with `type` = prefix + "::" + index, `entity_type` = "resource" and `id` = doc id. These overwrite earlier values, and every other key is unchanged. |
| `ResponseProcessor.KeptPositions` | src/main/java/io/jans/cedarling/opensearch/CedarlingSearchResponseProcessor.java:95-99 | The kept positions are strictly increasing. Each one is allowed or undecided, and every allowed or undecided position is among them. |
| `ResponseProcessor.KeptIsStableFilter` | src/main/java/io/jans/cedarling/opensearch/CedarlingSearchResponseProcessor.java:83-102 | The kept list is the hits at the kept positions, in input order: an order-preserving subsequence. |
| `ResponseProcessor.KeptLength` | src/main/java/io/jans/cedarling/opensearch/CedarlingSearchResponseProcessor.java:118 | The authorized count never exceeds the number of hits. |
| `ResponseProcessor.FailOpen` | src/main/java/io/jans/cedarling/opensearch/CedarlingSearchResponseProcessor.java:87-101 | A hit whose call threw is kept, at its own position, whatever the other hits got. A denied hit is dropped. |
| `ResponseProcessor.DecisionTimeIgnoresFailedCalls` | src/main/java/io/jans/cedarling/opensearch/CedarlingSearchResponseProcessor.java:89-93 | The decision-time sum depends only on the calls that returned normally. |
| `ResponseProcessor.DecisionTimeBound` | src/main/java/io/jans/cedarling/opensearch/CedarlingSearchResponseProcessor.java:82-93 | If every call takes at most m, the sum is at most m per hit. |
| `ResponseProcessor.RoundedAverage` | src/main/java/io/jans/cedarling/opensearch/CedarlingSearchResponseProcessor.java:66-119 | With no hits the average is -1. Otherwise it is the nearest integer to sum/n, with halves rounded up as `Math.round` does. |
| `ResponseProcessor.RoundedAverageAtMost` | src/main/java/io/jans/cedarling/opensearch/CedarlingSearchResponseProcessor.java:119 | If the sum is at most m per hit, the rounded average is at most m. |
| `ResponseProcessor.AverageAtMostLongestCall` | src/main/java/io/jans/cedarling/opensearch/CedarlingSearchResponseProcessor.java:119 | The reported average never exceeds the longest call. It is 0 when every call threw, since failed calls add no time. |
| `ResponseProcessor.ProcessResponseFilters` | src/main/java/io/jans/cedarling/opensearch/CedarlingSearchResponseProcessor.java:104-118 | On a non-empty response the returned hits are exactly the kept ones, in input order. A hit is kept iff the engine allowed it or its call threw. The count equals the number kept, even under `skipHits`. An empty profile is rebuilt as none. |
| `ResponseProcessor.ProcessResponseAverage` | src/main/java/io/jans/cedarling/opensearch/CedarlingSearchResponseProcessor.java:119 | The reported average is the returned calls' total time divided by all hits, rounded half up. |
| `ResponseProcessor.FirstExtMustBeCedarling` | src/main/java/io/jans/cedarling/opensearch/CedarlingSearchResponseProcessor.java:57-68 | An enabled request whose first ext builder is another plugin's fails with a cast error. `fromExtBuilderList` would have found a later `tbac` block. |
| `ResponseProcessor.RejectedPayloadFailsSearches` | src/main/java/io/jans/cedarling/opensearch/CedarlingSearchResponseProcessor.java:51-52 | After a newer payload fails validation, the next search fails on null settings. The cache stays null while the store is unchanged. |
| `SettingsCache.Reload` | src/main/java/io/jans/cedarling/opensearch/SettingsService.java:46-74 | The cache changes only if the version is positive, a payload is present and it parses. In that case the cache becomes what `from` returns, null included. `init` is called iff a snapshot was stored, and then receives its bootstrap properties, with version equal to the store's. |
| `SettingsCache.GetSettings` | src/main/java/io/jans/cedarling/opensearch/SettingsService.java:23-40 | It reloads iff nothing is cached, or the stored version is present, positive and strictly newer than the cached one. A missing version reads as 0. Without a reload the cache is returned untouched. |
| `SettingsCache.GetSettingsIdempotent` | src/main/java/io/jans/cedarling/opensearch/SettingsService.java:23-40 | A second call against the same store returns what the first returned. |
| `SettingsCache.CachedVersionNeverDecreases` | src/main/java/io/jans/cedarling/opensearch/SettingsService.java:31-36 | While a snapshot stays cached, its version never goes down. |
| `SettingsCache.RejectedPayloadDropsSnapshot` | src/main/java/io/jans/cedarling/opensearch/SettingsService.java:67-72 | A due reload whose payload parses but fails validation leaves the cache null and calls no `init`. |
| `SettingsCache.MalformedPayloadKeepsSnapshot` | src/main/java/io/jans/cedarling/opensearch/SettingsService.java:59-60 | A payload that is not a JSON object leaves the cache as it was, and calls no `init`. |
| `Settings.OptString` | src/main/java/io/jans/cedarling/opensearch/PluginSettings.java:29-39 | `optString` is never null: it gives "" for an absent or null key and the string itself for a string. |
| `Settings.From` | src/main/java/io/jans/cedarling/opensearch/PluginSettings.java:18-44 | It accepts iff `bootstrapProperties` is an object, so the other checks never reject. On success: version = argument, bootstrap copied, string-valued fields copied, an absent or null `searchActionName`/`schemaPrefix` becomes "", and any other value becomes its text. `enabled` follows a boolean and reads the strings "true"/"false" in any case; every other value, absent and null included, gives true. |
| `SettingsCache.LastUpdated` | src/main/java/io/jans/cedarling/opensearch/SettingsService.java:80-83 | The stored version, or 0 when the entry is missing. |
| `SettingsCache.SettingsService.Current` | src/main/java/io/jans/cedarling/opensearch/SettingsService.java:23-40 | `getSettings()` on the singleton returns the new cache, which is what one `GetSettings` step yields from the old one. |
| `Settings.AsMap` | src/main/java/io/jans/cedarling/opensearch/PluginSettings.java:50-73 | The map has exactly the keys enabled, bootstrapProperties, searchActionName and schemaPrefix, and no version key. Each value has its getter's kind: a boolean, an object and two strings. With `FromAsMapRoundTrip`, this fixes every value. |
| `Settings.AsMapForgetsOnlyVersion` | src/main/java/io/jans/cedarling/opensearch/PluginSettings.java:46-48 | Two snapshots give the same map iff they differ at most in `lastUpdated`. |
| `Settings.FromAsMapRoundTrip` | src/main/java/io/jans/cedarling/opensearch/PluginSettings.java:18-73 | Validating the exposed map at the snapshot's version gives back the snapshot. |
| `SearchExt.FromExtBuilderList` | src/main/java/io/jans/cedarling/opensearch/CedarlingSearchExtBuilder.java:61-68 | It returns null iff no element is a `tbac` builder. Otherwise it returns the element at the first such position. |
| `SearchExt.EqualsIsEquivalence` | src/main/java/io/jans/cedarling/opensearch/CedarlingSearchExtBuilder.java:51-54 | On `tbac` builders, `equals` is reflexive, symmetric and transitive, and coincides with equal parameter maps. |
| `SearchExt.Equals` | src/main/java/io/jans/cedarling/opensearch/CedarlingSearchExtBuilder.java:51-54 | A builder with parameters `params` equals `obj` iff `obj` is this plugin's builder with those very parameters; another plugin's builder is never equal. |
| `SearchExt.HashCode` | src/main/java/io/jans/cedarling/opensearch/CedarlingSearchExtBuilder.java:46-49 | The hash is a 32-bit signed value. |
| `SearchExt.EqualBuildersHashAlike` | src/main/java/io/jans/cedarling/opensearch/CedarlingSearchExtBuilder.java:46-54 | Equal builders have equal hash codes. |
| `SearchExt.ToXContent` | src/main/java/io/jans/cedarling/opensearch/CedarlingSearchExtBuilder.java:38-44 | It emits one field per parameter key, each with that key's value. No key repeats and nothing else is emitted. |
| `SearchExt.WriteableName` | src/main/java/io/jans/cedarling/opensearch/CedarlingSearchExtBuilder.java:12-31 | The `tbac` builder's writeable name is always "tbac". |

## Left out

- Wall-clock time: the processor's elapsed time and each call's duration are inputs. Durations
  are `nat`, which assumes a clock that does not run backwards.
- The policy engine (`CedarlingService`, a native call) is a function parameter. Its `init`
  swallows every `Exception` (`CedarlingService.java:27-34`), so it is recorded only as the
  bootstrap properties it receives.
- An `Error` raised by the native `loadFromJson` inside `init`, or by the first
  `CedarlingService.getInstance()` at `SettingsService.java:68`, is caught neither there nor at
  `SettingsService.java:70`. It escapes `getSettings` after the assignment at :67, so that
  search fails while the new snapshot stays cached. The model has no such outcome.
- `Json.Wrap` covers only what `JSONObject.wrap` does to parsed JSON values: objects, arrays
  and scalars. Its handling of Java beans, enums and number validity checks is not modelled,
  since a parsed request holds none of them.
- JSON parsing and `toString` rendering are the abstract `JsonLib`. Numbers are compared by
  their literal text, which is not how Java compares `Integer`, `Long` and `Double` values.
- `Settings.OptString`: for a non-string value, the result is the abstract `JsonLib.text` of it,
  not org.json's concrete rendering.
- `Settings.OptBoolean` folds case for ASCII letters only. Java's `equalsIgnoreCase` also
  matches a few non-ASCII letters, such as the long s.
- `ResponseProcessor.RoundedAverage`: the source divides in 32-bit `float` and clamps the result
  to `int`. The model rounds the exact quotient, so float precision loss on very large sums is
  not modelled.
- `SearchExt.HashCode`: the class hash and the parameter map's hash come from the JVM and are
  parameters. Only the `Objects.hash` combination and its 32-bit wrap-around are modelled.
- The enrichment calls `putAll` on the map the hit hands out, so the hit's cached source map
  does change. The model keeps the input hits unchanged in the result because the response is
  serialised from each hit's source bytes, which the enrichment does not touch.
- `Failed` stands for an `Exception` caught by the per-hit `catch` (:98). An `Error` raised by
  the native engine call (for example a linkage error) is not caught there or at :133; it
  escapes and fails the whole search. The model has no such outcome.
- `hit.getSourceAsMap()` (:85) runs outside the per-hit `try`. A failure while decoding the
  source bytes fails the whole search instead of keeping the hit; the model takes every source
  as already decoded (or null).
- The response is built by an 11-argument `new CedarlingSearchResponse(...)`
  (`CedarlingSearchResponseProcessor.java:122-131`). The only constructor in
  `CedarlingSearchResponse.java` (:15-28) is private and takes 9 arguments, without `phaseTook`
  or `pointInTimeId`, so the call site does not match it. `Assemble` follows the call site,
  which passes `response.getPhaseTook()` and `response.pointInTimeId()` through. That call is
  the only basis for `ProcessResponse` copying those two fields.
- `CedarlingSearchResponse` wire serialisation, the stream constructor, `writeTo`, and `parse`
  of the ext builder are out of scope: they are serialisation only.
- A null `request.source()` is not modelled. The request is taken to carry an ext list.
- `SettingsRestHandler` (HTTP routing, content-type check, the timed cluster-settings write),
  plugin registration in `CedarlingPlugin`, and the processor factory are host wiring. Only the
  two setting-key names are kept, as constants.
- Concurrency of the singleton cache (an unsynchronised field) is not modelled. The cache is a
  sequential state machine.
- Logging is not modelled.

=== FILE: json.dfy ===
/** JSON values as org.json and the OpenSearch parser hand them to the plugin. */
module Json {
  import opened Options

  /** A JSON value. Numbers keep their literal text: the model never computes with them. */
  datatype Json =
    | JNull
    | JBool(b: bool)
    | JNum(repr: string)
    | JStr(str: string)
    | JArr(items: seq<Json>)
    | JObj(fields: map<string, Json>)

  /** A JSON object: its keys and their values. */
  type JsonObject = map<string, Json>

  /** The JSON library, left abstract. `parse` is `new JSONObject(text)`: `None` where it
      throws (text that is not a JSON object). `text` is a value's `toString()`. */
  datatype JsonLib = JsonLib(parse: string -> Option<JsonObject>, text: Json -> string)

  /** No object, at any depth, has a null-valued entry. Nulls inside arrays are allowed. */
  predicate NoNullEntries(v: Json) {
    match v
    case JObj(m) => forall k :: k in m ==> m[k] != JNull && NoNullEntries(m[k])
    case JArr(items) => forall i :: 0 <= i < |items| ==> NoNullEntries(items[i])
    case _ => true
  }

  /** `JSONObject.wrap` applied to a parsed value: an object is rebuilt by `new JSONObject(map)`,
      which drops the entries whose value is null, and an array is rebuilt element by element,
      keeping its nulls. Every other value is kept as it is. */
  function Wrap(v: Json): (r: Json)
    ensures r.JObj? <==> v.JObj?
    ensures r.JArr? <==> v.JArr?
    ensures v.JArr? ==> |r.items| == |v.items|
    ensures v.JObj? ==> r.fields.Keys == set k | k in v.fields && v.fields[k] != JNull
    ensures v.JObj? ==> forall k :: k in r.fields ==> r.fields[k] != JNull
    ensures !v.JObj? && !v.JArr? ==> r == v
    ensures NoNullEntries(r)
    ensures NoNullEntries(v) ==> r == v
  {
    match v
    case JObj(m) => JObj(map k | k in m && m[k] != JNull :: Wrap(m[k]))
    case JArr(items) => JArr(seq(|items|, i requires 0 <= i < |items| => Wrap(items[i])))
    case _ => v
  }

  /** `new JSONObject(map)`: the map with its null-valued entries dropped, at every depth. */
  function ObjectOf(m: JsonObject): (r: JsonObject)
    ensures r.Keys <= m.Keys
    ensures forall k :: k in m ==> (k in r <==> m[k] != JNull)
    ensures forall k :: k in r && NoNullEntries(m[k]) ==> r[k] == m[k]
    ensures forall k :: k in r ==> NoNullEntries(r[k])
  {
    Wrap(JObj(m)).fields
  }

  /** Rebuilding is idempotent: a value that has been through `JSONObject.wrap` once comes out
      of it again unchanged, since it no longer has null-valued entries. */
  lemma WrapIdempotent(v: Json)
    ensures Wrap(Wrap(v)) == Wrap(v)
  {
  }
}

=== FILE: options.dfy ===
/** A value that may be absent; it stands for a Java reference that may be null. */
module Options {

  datatype Option<T> = None | Some(value: T) {

    /** The wrapped value, or `default` when there is none (Java's `Optional.orElse`). */
    function GetOr(default: T): T {
      match this
      case Some(v) => v
      case None => default
    }
  }
}

=== FILE: response_processor.dfy ===
/** `CedarlingSearchResponseProcessor`: asks the policy engine about every hit of a search
    response, keeps the hits it allows (and, fail-open, those it could not decide), and attaches
    the decision metrics to the response. */
module ResponseProcessor {
  import opened Options
  import opened Json
  import opened Settings
  import opened SettingsCache
  import opened SearchExt

  /** The processor's registered type, also the key of the response's ext section. */
  const ProcessorType := "cedarling"

  /** One search hit. Index, id and source are Java references and may be null. */
  datatype Hit = Hit(index: Option<string>, id: Option<string>, source: Option<JsonObject>)

  /** `SearchHits`: the hit array and the metadata copied alongside it. */
  datatype SearchHits = SearchHits(
    hits: seq<Hit>,
    totalHits: Json,
    maxScore: Json,
    sortFields: seq<Json>,
    collapseField: Option<string>,
    collapseValues: seq<Json>)

  /** `SearchResponseSections`. */
  datatype Sections = Sections(
    hits: SearchHits,
    aggregations: Json,
    suggest: Json,
    timedOut: bool,
    terminatedEarly: Option<bool>,
    profile: Option<map<string, Json>>,
    numReducePhases: int,
    searchExtBuilders: seq<ExtBuilder>)

  /** The processor's ext section: `authorized_hits_count` and `average_decision_time`. */
  datatype DecisionMetrics = DecisionMetrics(authorizedHitsCount: int, averageDecisionTime: int)

  /** A search response; `ext` is the section this processor adds. */
  datatype SearchResponse = SearchResponse(
    sections: Sections,
    scrollId: Option<string>,
    totalShards: int,
    successfulShards: int,
    skippedShards: int,
    took: int,
    phaseTook: Json,
    shardFailures: seq<Json>,
    clusters: Json,
    pointInTimeId: Option<string>,
    ext: Option<DecisionMetrics>)

  /** The part of the search request the processor reads: its ext builders, in order. */
  datatype SearchRequest = SearchRequest(ext: seq<ExtBuilder>)

  /** The arguments of one `authorize(tokens, action, resource, context)` call. */
  datatype AuthzRequest = AuthzRequest(
    tokens: JsonObject, action: string, resource: JsonObject, context: JsonObject)

  /** The outcome of asking about one hit: a decision, or an exception instead of one. */
  datatype Decision = Decided(allowed: bool) | Failed

  /** The exceptions `processResponse` lets escape. */
  datatype ProcessError =
    | SettingsMissing   // `isEnabled()` called on null settings
    | NotCedarlingExt   // the first ext builder cannot be cast to this plugin's builder
    | TokensNotObject   // `tbac.tokens` cannot be cast to a map
    | ContextNotObject  // `tbac.context` cannot be cast to a map

  datatype Result<T> = Ok(value: T) | Err(error: ProcessError)

  /** What every call of one response shares: tokens, action, schema prefix and context. The
      context is the `tbac.context` map after `new JSONObject(map)`, so without null entries. */
  datatype Evaluation = Evaluation(
    tokens: JsonObject, action: string, schemaPrefix: string, context: JsonObject)

  const TypeKey := "type"
  const EntityTypeKey := "entity_type"
  const IdKey := "id"

  /** Java string concatenation renders a null index as "null". */
  function IndexText(index: Option<string>): string {
    if index.Some? then index.value else "null"
  }

  /** `appendExtraAttributes`: the source map with `type`, `entity_type` and `id` put in,
      replacing earlier values under those keys and leaving every other key alone. */
  function Enrich(source: JsonObject, prefix: string, index: Option<string>, id: string): (r: JsonObject)
    ensures r.Keys == source.Keys + {TypeKey, EntityTypeKey, IdKey}
    ensures r[TypeKey] == JStr(prefix + "::" + IndexText(index))
    ensures r[EntityTypeKey] == JStr("resource")
    ensures r[IdKey] == JStr(id)
    ensures forall k :: k in source && k != TypeKey && k != EntityTypeKey && k != IdKey ==>
              r[k] == source[k]
  {
    source[TypeKey := JStr(prefix + "::" + IndexText(index))]
          [EntityTypeKey := JStr("resource")]
          [IdKey := JStr(id)]
  }

  /** The try-block for one hit. A null source or a null id makes the enrichment throw
      (`putAll` on null, `Map.of` with a null value) before the engine is asked. */
  function Call(hit: Hit, ev: Evaluation, pdp: AuthzRequest -> Decision): (d: Decision)
    ensures hit.source.None? || hit.id.None? ==> d == Failed
    ensures hit.source.Some? && hit.id.Some? ==>
              exists q: AuthzRequest :: d == pdp(q)
                && q.tokens == ev.tokens && q.action == ev.action && q.context == ev.context
                && q.resource.Keys == hit.source.value.Keys + {TypeKey, EntityTypeKey, IdKey}
                && q.resource[IdKey] == JStr(hit.id.value)
                && q.resource[TypeKey] == JStr(ev.schemaPrefix + "::" + IndexText(hit.index))
                && q.resource[EntityTypeKey] == JStr("resource")
                && forall k :: k in hit.source.value && k !in {TypeKey, EntityTypeKey, IdKey} ==>
                     q.resource[k] == hit.source.value[k]
  {
    if hit.source.None? || hit.id.None? then Failed
    else pdp(AuthzRequest(ev.tokens, ev.action,
                          Enrich(hit.source.value, ev.schemaPrefix, hit.index, hit.id.value),
                          ev.context))
  }

  /** The named fail-open policy: a hit is kept when allowed or when no decision came back. */
  predicate Keeps(d: Decision) {
    d.Failed? || d.allowed
  }

  /** The outcome for each hit, in order. */
  function Decisions(hits: seq<Hit>, ev: Evaluation, pdp: AuthzRequest -> Decision): seq<Decision> {
    seq(|hits|, i requires 0 <= i < |hits| => Call(hits[i], ev, pdp))
  }

  /** Reference definition of the kept hits, built up the way the loop appends them. */
  function Kept(hits: seq<Hit>, ds: seq<Decision>): seq<Hit>
    requires |ds| == |hits|
  {
    if |hits| == 0 then []
    else Kept(hits[..|hits| - 1], ds[..|ds| - 1]) + (if Keeps(ds[|ds| - 1]) then [hits[|hits| - 1]] else [])
  }

  /** Reference definition of the summed decision time: only calls that returned count. */
  function DecisionTime(ds: seq<Decision>, durations: seq<nat>): nat
    requires |durations| == |ds|
  {
    if |ds| == 0 then 0
    else DecisionTime(ds[..|ds| - 1], durations[..|durations| - 1])
         + (if ds[|ds| - 1].Decided? then durations[|durations| - 1] else 0)
  }

  /** The positions of the hits the policy keeps, in increasing order. */
  function KeptPositions(ds: seq<Decision>): (p: seq<nat>)
    ensures forall j :: 0 <= j < |p| ==> p[j] < |ds| && Keeps(ds[p[j]])
    ensures forall j, k :: 0 <= j < k < |p| ==> p[j] < p[k]
    ensures forall i :: 0 <= i < |ds| && Keeps(ds[i]) ==> i in p
  {
    if |ds| == 0 then []
    else
      var front := KeptPositions(ds[..|ds| - 1]);
      assert forall i :: 0 <= i < |ds| - 1 ==> ds[..|ds| - 1][i] == ds[i];
      front + (if Keeps(ds[|ds| - 1]) then [|ds| - 1] else [])
  }

  /** `Math.round(sum / n)` for n hits, -1 when there are none. */
  function RoundedAverage(sum: nat, n: nat): (r: int)
    ensures n == 0 ==> r == -1
    ensures n > 0 ==> 0 <= r && 2 * n * r - n <= 2 * sum < 2 * n * r + n
  {
    if n == 0 then -1
    else
      var r := (2 * sum + n) / (2 * n);
      assert 2 * n * r <= 2 * sum + n < 2 * n * r + 2 * n;
      r
  }

  /** The do-while loop over the hits: one try-block per hit, appending kept hits and adding
      the elapsed time of every call that returned. `durations[i]` is the time the call for hit
      `i` took, as measured around `authorize`. */
  method DecideAll(hits: seq<Hit>, durations: seq<nat>, ev: Evaluation, pdp: AuthzRequest -> Decision)
    returns (kept: seq<Hit>, decisionsTook: nat)
    requires |durations| == |hits|
    ensures decisionsTook == DecisionTime(Decisions(hits, ev, pdp), durations)
    ensures kept == Kept(hits, Decisions(hits, ev, pdp))
  {
    kept := [];
    decisionsTook := 0;
    ghost var ds := Decisions(hits, ev, pdp);
    var i := 0;
    while i < |hits|
      invariant 0 <= i <= |hits|
      invariant kept == Kept(hits[..i], ds[..i])
      invariant decisionsTook == DecisionTime(ds[..i], durations[..i])
    {
      var d := Call(hits[i], ev, pdp);
      assert d == ds[i];
      if d.Decided? {
        decisionsTook := decisionsTook + durations[i];
        if d.allowed {
          kept := kept + [hits[i]];
        }
      } else {
        kept := kept + [hits[i]];
      }
      assert hits[..i + 1][..i] == hits[..i];
      assert ds[..i + 1][..i] == ds[..i];
      assert durations[..i + 1][..i] == durations[..i];
      i := i + 1;
    }
    assert hits[..|hits|] == hits;
    assert ds[..|hits|] == ds;
    assert durations[..|durations|] == durations;
  }

  /** Whether `Map.class::cast` accepts the parameter: it is absent, null or an object. */
  predicate MapCastSucceeds(params: JsonObject, key: string) {
    key !in params || params[key].JNull? || params[key].JObj?
  }

  /** `Optional.ofNullable(tbac.get(key)).map(Map.class::cast).orElse(empty)`: an absent or null
      parameter reads as the empty map, an object as itself, and anything else throws. */
  function ParamObject(params: JsonObject, key: string, err: ProcessError): (r: Result<JsonObject>)
    ensures r.Ok? <==> MapCastSucceeds(params, key)
    ensures r.Err? ==> r.error == err
    ensures r.Ok? && key in params && params[key].JObj? ==> JObj(r.value) == params[key]
    ensures r.Ok? && !(key in params && params[key].JObj?) ==> r.value == map[]
  {
    if key !in params then Ok(map[])
    else match params[key]
      case JNull => Ok(map[])
      case JObj(m) => Ok(m)
      case _ => Err(err)
  }

  /** An empty profile map is rebuilt as no profile at all. */
  function RebuildProfile(profile: Option<map<string, Json>>): Option<map<string, Json>> {
    if profile.None? || profile.value == map[] then None else profile
  }

  /** The new sections: the hit array replaced, everything else copied. */
  function RebuildSections(sections: Sections, hits: seq<Hit>): Sections {
    sections.(hits := sections.hits.(hits := hits), profile := RebuildProfile(sections.profile))
  }

  /** The response the processor returns when it ran: the given sections, the metrics
      section, and `took` grown by the processor's own running time. */
  function Assemble(response: SearchResponse, sections: Sections, metrics: DecisionMetrics,
                    elapsed: nat): SearchResponse {
    response.(sections := sections, took := response.took + elapsed, ext := Some(metrics))
  }

  /** The processor does its work: settings exist and are enabled, and the request has ext. */
  predicate Engaged(settings: Option<PluginSettings>, request: SearchRequest) {
    settings.Some? && settings.value.enabled && |request.ext| > 0
  }

  /** `processResponse`. `settings` is what `getSettings()` returned; `skipHits` stands for the
      plugin's test-mode flag; `pdp` is the policy engine; `durations` are the measured times of
      the calls, one per hit; `elapsed` is the processor's own wall-clock time. */
  function ProcessResponse(settings: Option<PluginSettings>, skipHits: bool, request: SearchRequest,
                           response: SearchResponse, pdp: AuthzRequest -> Decision,
                           durations: seq<nat>, elapsed: nat): (r: Result<SearchResponse>)
    requires |durations| == |response.sections.hits.hits|
    ensures settings.None? ==> r == Err(SettingsMissing)
    ensures settings.Some? && (!settings.value.enabled || request.ext == []) ==> r == Ok(response)
    ensures Engaged(settings, request) && !request.ext[0].CedarlingExt? ==> r == Err(NotCedarlingExt)
    ensures Engaged(settings, request) && request.ext[0].CedarlingExt? ==>
              (r.Ok? <==> |response.sections.hits.hits| == 0 ||
                          (MapCastSucceeds(request.ext[0].params, "tokens") &&
                           MapCastSucceeds(request.ext[0].params, "context")))
    ensures Engaged(settings, request) && request.ext[0].CedarlingExt? &&
            |response.sections.hits.hits| > 0 && !MapCastSucceeds(request.ext[0].params, "tokens") ==>
              r == Err(TokensNotObject)
    ensures Engaged(settings, request) && request.ext[0].CedarlingExt? &&
            |response.sections.hits.hits| > 0 && MapCastSucceeds(request.ext[0].params, "tokens") &&
            !MapCastSucceeds(request.ext[0].params, "context") ==>
              r == Err(ContextNotObject)
    ensures Engaged(settings, request) && r.Ok? ==>
              && r.value.took == response.took + elapsed
              && r.value.took >= response.took
              && r.value.ext.Some?
              && r.value.(sections := response.sections, took := response.took, ext := response.ext) == response
              && r.value.sections.(hits := response.sections.hits, profile := response.sections.profile)
                   == response.sections
              && r.value.sections.hits.(hits := response.sections.hits.hits) == response.sections.hits
              && 0 <= r.value.ext.value.authorizedHitsCount <= |response.sections.hits.hits|
              && |r.value.sections.hits.hits| <= r.value.ext.value.authorizedHitsCount
    ensures Engaged(settings, request) && request.ext[0].CedarlingExt? && |response.sections.hits.hits| == 0 ==>
              r.Ok? && r.value.sections == response.sections && r.value.ext == Some(DecisionMetrics(0, -1))
    ensures Engaged(settings, request) && r.Ok? && |response.sections.hits.hits| > 0 ==>
              && r.value.ext.value.averageDecisionTime >= 0
              && (skipHits ==> r.value.sections.hits.hits == [])
              && (!skipHits ==> |r.value.sections.hits.hits| == r.value.ext.value.authorizedHitsCount)
  {
    if settings.None? then Err(SettingsMissing)
    else if !settings.value.enabled then Ok(response)
    else if |request.ext| == 0 then Ok(response)
    else if !request.ext[0].CedarlingExt? then Err(NotCedarlingExt)
    else
      var hits := response.sections.hits.hits;
      if |hits| == 0 then
        Ok(Assemble(response, response.sections, DecisionMetrics(0, -1), elapsed))
      else
        var tbac := request.ext[0].params;
        match ParamObject(tbac, "tokens", TokensNotObject)
        case Err(e) => Err(e)
        case Ok(tokens) =>
          match ParamObject(tbac, "context", ContextNotObject)
          case Err(e) => Err(e)
          case Ok(context) =>
            // the engine receives `new JSONObject(context)`, not the map itself
            var ev := Evaluation(tokens, settings.value.searchActionName, settings.value.schemaPrefix, ObjectOf(context));
            var ds := Decisions(hits, ev, pdp);
            var kept := Kept(hits, ds);
            KeptLength(hits, ds);
            var sections := RebuildSections(response.sections, if skipHits then [] else kept);
            var average := RoundedAverage(DecisionTime(ds, durations), |hits|);
            Ok(Assemble(response, sections, DecisionMetrics(|kept|, average), elapsed))
  }

  /** The kept list is never longer than the input. */
  lemma {:induction false} KeptLength(hits: seq<Hit>, ds: seq<Decision>)
    requires |ds| == |hits|
    ensures |Kept(hits, ds)| <= |hits|
  {
    if |hits| > 0 {
      KeptLength(hits[..|hits| - 1], ds[..|ds| - 1]);
    }
  }

  /** The kept list is the stable filter of the hits by the fail-open policy: the hits at
      `KeptPositions`, in their original order. */
  lemma {:induction false} KeptIsStableFilter(hits: seq<Hit>, ds: seq<Decision>)
    requires |ds| == |hits|
    ensures |Kept(hits, ds)| == |KeptPositions(ds)|
    ensures forall j :: 0 <= j < |KeptPositions(ds)| ==> Kept(hits, ds)[j] == hits[KeptPositions(ds)[j]]
  {
    if |hits| > 0 {
      var n := |hits| - 1;
      KeptIsStableFilter(hits[..n], ds[..n]);
      var front := KeptPositions(ds[..n]);
      assert KeptPositions(ds) == front + (if Keeps(ds[n]) then [n] else []);
      forall j | 0 <= j < |front|
        ensures Kept(hits, ds)[j] == hits[KeptPositions(ds)[j]]
      {
        assert front[j] < n;
        assert Kept(hits, ds)[j] == Kept(hits[..n], ds[..n])[j];
        assert hits[..n][front[j]] == hits[front[j]];
      }
    }
  }

  /** Fail-open: a hit whose call threw is kept, whatever happened to the other hits; a hit the
      engine denied is not. */
  lemma FailOpen(hits: seq<Hit>, ds: seq<Decision>, i: nat)
    requires |ds| == |hits| && i < |hits|
    ensures ds[i].Failed? ==> i in KeptPositions(ds) && hits[i] in Kept(hits, ds)
    ensures ds[i] == Decided(false) ==> i !in KeptPositions(ds)
  {
    KeptIsStableFilter(hits, ds);
    if ds[i].Failed? {
      var j :| 0 <= j < |KeptPositions(ds)| && KeptPositions(ds)[j] == i;
      assert Kept(hits, ds)[j] == hits[i];
    }
  }

  /** The summed decision time depends only on the calls that returned: changing the measured
      time of a call that threw changes nothing. */
  lemma {:induction false} DecisionTimeIgnoresFailedCalls(ds: seq<Decision>, durations: seq<nat>,
                                                          others: seq<nat>)
    requires |durations| == |ds| && |others| == |ds|
    requires forall i :: 0 <= i < |ds| && ds[i].Decided? ==> durations[i] == others[i]
    ensures DecisionTime(ds, durations) == DecisionTime(ds, others)
  {
    if |ds| > 0 {
      var n := |ds| - 1;
      DecisionTimeIgnoresFailedCalls(ds[..n], durations[..n], others[..n]);
    }
  }

  /** With every call taking at most `m`, the sum is at most `m` per hit. */
  lemma {:induction false} DecisionTimeBound(ds: seq<Decision>, durations: seq<nat>, m: nat)
    requires |durations| == |ds|
    requires forall i :: 0 <= i < |durations| ==> durations[i] <= m
    ensures DecisionTime(ds, durations) <= |ds| * m
  {
    if |ds| > 0 {
      var n := |ds| - 1;
      DecisionTimeBound(ds[..n], durations[..n], m);
      assert (n + 1) * m == n * m + m;
    }
  }

  /** Rounding an average of at most `m` per hit gives at most `m`. */
  lemma RoundedAverageAtMost(sum: nat, n: nat, m: nat)
    requires n > 0 && sum <= n * m
    ensures RoundedAverage(sum, n) <= m
  {
    var r := RoundedAverage(sum, n);
    assert 2 * n * r - n <= 2 * sum;
    assert 2 * sum <= 2 * (n * m);
    assert 2 * n * r < 2 * n * m + 2 * n;
    assert n * (2 * r) < n * (2 * m + 2);
  }

  /** Dividing by every hit, not only the decided ones, the reported average never exceeds the
      longest call; when every call threw it is 0. */
  lemma AverageAtMostLongestCall(ds: seq<Decision>, durations: seq<nat>, m: nat)
    requires |durations| == |ds| && |ds| > 0
    requires forall i :: 0 <= i < |durations| ==> durations[i] <= m
    ensures RoundedAverage(DecisionTime(ds, durations), |ds|) <= m
    ensures (forall i :: 0 <= i < |ds| ==> ds[i].Failed?) ==>
              RoundedAverage(DecisionTime(ds, durations), |ds|) == 0
  {
    DecisionTimeBound(ds, durations, m);
    RoundedAverageAtMost(DecisionTime(ds, durations), |ds|, m);
    if (forall i :: 0 <= i < |ds| ==> ds[i].Failed?) {
      var zeros := seq(|ds|, i => 0);
      DecisionTimeIgnoresFailedCalls(ds, durations, zeros);
      DecisionTimeBound(ds, zeros, 0);
      RoundedAverageAtMost(DecisionTime(ds, durations), |ds|, 0);
    }
  }

  /** When the processor runs on a non-empty response, the hits it returns are exactly the hits
      the fail-open policy keeps, in their original order (none at all under `skipHits`), and
      the reported count is that number either way. */
  lemma ProcessResponseFilters(settings: Option<PluginSettings>, skipHits: bool,
                               request: SearchRequest, response: SearchResponse,
                               pdp: AuthzRequest -> Decision, durations: seq<nat>, elapsed: nat,
                               tokens: JsonObject, context: JsonObject)
    requires |durations| == |response.sections.hits.hits| > 0
    requires Engaged(settings, request) && request.ext[0].CedarlingExt?
    requires ParamObject(request.ext[0].params, "tokens", TokensNotObject) == Ok(tokens)
    requires ParamObject(request.ext[0].params, "context", ContextNotObject) == Ok(context)
    ensures var hits := response.sections.hits.hits;
            var ev := Evaluation(tokens, settings.value.searchActionName, settings.value.schemaPrefix, ObjectOf(context));
            var p := KeptPositions(Decisions(hits, ev, pdp));
            var r := ProcessResponse(settings, skipHits, request, response, pdp, durations, elapsed);
            && r.Ok?
            && r.value.ext.value.authorizedHitsCount == |p|
            && (forall i :: 0 <= i < |hits| ==> (Keeps(Call(hits[i], ev, pdp)) <==> i in p))
            && (!skipHits ==>
                  |r.value.sections.hits.hits| == |p| &&
                  forall j :: 0 <= j < |p| ==> r.value.sections.hits.hits[j] == hits[p[j]])
            && r.value.sections.profile == RebuildProfile(response.sections.profile)
  {
    var hits := response.sections.hits.hits;
    var ev := Evaluation(tokens, settings.value.searchActionName, settings.value.schemaPrefix, ObjectOf(context));
    KeptIsStableFilter(hits, Decisions(hits, ev, pdp));
  }

  /** The average reported for a non-empty response is the decided calls' total time divided by
      all hits, rounded half up. */
  lemma ProcessResponseAverage(settings: Option<PluginSettings>, skipHits: bool,
                               request: SearchRequest, response: SearchResponse,
                               pdp: AuthzRequest -> Decision, durations: seq<nat>, elapsed: nat,
                               tokens: JsonObject, context: JsonObject)
    requires |durations| == |response.sections.hits.hits| > 0
    requires Engaged(settings, request) && request.ext[0].CedarlingExt?
    requires ParamObject(request.ext[0].params, "tokens", TokensNotObject) == Ok(tokens)
    requires ParamObject(request.ext[0].params, "context", ContextNotObject) == Ok(context)
    ensures var n := |response.sections.hits.hits|;
            var ev := Evaluation(tokens, settings.value.searchActionName, settings.value.schemaPrefix, ObjectOf(context));
            var sum := DecisionTime(Decisions(response.sections.hits.hits, ev, pdp), durations);
            var avg := ProcessResponse(settings, skipHits, request, response, pdp, durations, elapsed)
                         .value.ext.value.averageDecisionTime;
            2 * n * avg - n <= 2 * sum < 2 * n * avg + n
  {
  }

  /** The processor casts the first ext builder instead of searching the list: a request whose
      first builder belongs to another plugin fails even when this plugin's builder follows. */
  lemma FirstExtMustBeCedarling(settings: Option<PluginSettings>, skipHits: bool,
                                request: SearchRequest, response: SearchResponse,
                                pdp: AuthzRequest -> Decision, durations: seq<nat>, elapsed: nat)
    requires |durations| == |response.sections.hits.hits|
    requires Engaged(settings, request) && request.ext[0].OtherExt?
    ensures ProcessResponse(settings, skipHits, request, response, pdp, durations, elapsed)
              == Err(NotCedarlingExt)
    ensures FromExtBuilderList(request.ext).Some? <==>
              exists i :: 0 < i < |request.ext| && request.ext[i].CedarlingExt?
  {
  }

  /** After a newer payload that parses but fails validation, the cache is null and the next
      search fails on it; it keeps failing while the store stays the same. */
  lemma RejectedPayloadFailsSearches(cache: Option<PluginSettings>, store: Store, lib: JsonLib,
                                     skipHits: bool, request: SearchRequest,
                                     response: SearchResponse, pdp: AuthzRequest -> Decision,
                                     durations: seq<nat>, elapsed: nat)
    requires |durations| == |response.sections.hits.hits|
    requires NeedsReload(cache, store) && 0 < LastUpdated(store) && store.payload.Some?
    requires lib.parse(store.payload.value).Some?
    requires From(lib.parse(store.payload.value).value, LastUpdated(store), lib).None?
    ensures var first := GetSettings(cache, store, lib).settings;
            && ProcessResponse(first, skipHits, request, response, pdp, durations, elapsed)
                 == Err(SettingsMissing)
            && GetSettings(first, store, lib).settings.None?
  {
    RejectedPayloadDropsSnapshot(cache, store, lib);
    RejectedPayloadDropsSnapshot(None, store, lib);
  }
}

=== FILE: search_ext.dfy ===
/** `CedarlingSearchExtBuilder`: the request's `ext.tbac` block, holding the caller's tokens and
    evaluation context as a parameter map. */
module SearchExt {
  import opened Options
  import opened Json

  /** The name the block is registered and serialised under. */
  const ParamFieldName := "tbac"

  /** A search extension builder attached to a request: this plugin's, or another plugin's. */
  datatype ExtBuilder =
    | CedarlingExt(params: JsonObject)
    | OtherExt(name: string, content: JsonObject)

  /** `getWriteableName()`. */
  function WriteableName(b: ExtBuilder): (name: string)
    ensures b.CedarlingExt? ==> name == ParamFieldName
  {
    match b
    case CedarlingExt(_) => ParamFieldName
    case OtherExt(n, _) => n
  }

  /** `fromExtBuilderList`: the first builder of this plugin's kind, or null when none is. */
  function FromExtBuilderList(builders: seq<ExtBuilder>): (r: Option<ExtBuilder>)
    ensures r.None? <==> forall i :: 0 <= i < |builders| ==> !builders[i].CedarlingExt?
    ensures r.Some? ==>
              r.value.CedarlingExt? &&
              exists i :: 0 <= i < |builders| && builders[i] == r.value &&
                          forall j :: 0 <= j < i ==> !builders[j].CedarlingExt?
  {
    if |builders| == 0 then None
    else if builders[0].CedarlingExt? then Some(builders[0])
    else
      var r := FromExtBuilderList(builders[1..]);
      assert forall j :: 0 < j < |builders| ==> builders[j] == builders[1..][j - 1];
      r
  }

  /** `equals(obj)` on a builder with parameters `params`: `obj` is also this plugin's builder
      and its parameter map is equal. */
  function Equals(params: JsonObject, obj: ExtBuilder): (r: bool)
    ensures r <==> obj == CedarlingExt(params)
    ensures obj.OtherExt? ==> !r
  {
    obj.CedarlingExt? && params == obj.params
  }

  /** Java's `int` arithmetic: the value modulo 2^32, in the signed range. */
  function Int32(x: int): (r: int)
    ensures -0x8000_0000 <= r < 0x8000_0000
    ensures (r - x) % 0x1_0000_0000 == 0
  {
    (x + 0x8000_0000) % 0x1_0000_0000 - 0x8000_0000
  }

  /** `hashCode()` = `Objects.hash(getClass(), params)` = 31 * (31 + h(class)) + h(params) in
      `int` arithmetic. The class hash and the map hash are the JVM's and stay abstract. */
  function HashCode(params: JsonObject, classHash: int, mapHash: JsonObject -> int): (h: int)
    ensures -0x8000_0000 <= h < 0x8000_0000
  {
    Int32(31 * (31 + classHash) + mapHash(params))
  }

  /** `equals` is an equivalence relation on this plugin's builders. */
  lemma EqualsIsEquivalence(a: ExtBuilder, b: ExtBuilder, c: ExtBuilder)
    requires a.CedarlingExt? && b.CedarlingExt? && c.CedarlingExt?
    ensures Equals(a.params, a)
    ensures Equals(a.params, b) <==> Equals(b.params, a)
    ensures Equals(a.params, b) && Equals(b.params, c) ==> Equals(a.params, c)
    ensures Equals(a.params, b) <==> a == b
  {
  }

  /** Equal builders have equal hash codes. */
  lemma EqualBuildersHashAlike(params: JsonObject, obj: ExtBuilder, classHash: int,
                               mapHash: JsonObject -> int)
    requires Equals(params, obj)
    ensures HashCode(params, classHash, mapHash) == HashCode(obj.params, classHash, mapHash)
  {
  }

  /** `toXContent`: one field per parameter key, carrying that key's value. The key order is
      the map's iteration order, which the model leaves unspecified. */
  method ToXContent(params: JsonObject) returns (fields: seq<(string, Json)>)
    ensures |fields| == |params|
    ensures forall i :: 0 <= i < |fields| ==> fields[i].0 in params && params[fields[i].0] == fields[i].1
    ensures forall i, j :: 0 <= i < j < |fields| ==> fields[i].0 != fields[j].0
    ensures forall k :: k in params ==> exists i :: 0 <= i < |fields| && fields[i].0 == k
  {
    var remaining := params.Keys;
    fields := [];
    while remaining != {}
      invariant remaining <= params.Keys
      invariant |fields| + |remaining| == |params.Keys|
      invariant forall i :: 0 <= i < |fields| ==>
                  fields[i].0 in params && params[fields[i].0] == fields[i].1 && fields[i].0 !in remaining
      invariant forall i, j :: 0 <= i < j < |fields| ==> fields[i].0 != fields[j].0
      invariant forall k :: k in params && k !in remaining ==>
                  exists i :: 0 <= i < |fields| && fields[i].0 == k
      decreases remaining
    {
      var k :| k in remaining;
      ghost var before := fields;
      fields := fields + [(k, params[k])];
      assert fields[|before|].0 == k;
      assert forall i :: 0 <= i < |before| ==> fields[i] == before[i];
      remaining := remaining - {k};
    }
    assert |params.Keys| == |params|;
  }
}

=== FILE: settings.dfy ===
/** The plugin's settings snapshot (`PluginSettings`): built from the stored JSON document by a
    validating constructor and exposed back as a flat map. */
module Settings {
  import opened Options
  import opened Json

  const EnabledKey := "enabled"
  const BootstrapKey := "bootstrapProperties"
  const ActionKey := "searchActionName"
  const PrefixKey := "schemaPrefix"

  /** An immutable settings snapshot. `lastUpdated` is the store version it was read at. */
  datatype PluginSettings = PluginSettings(
    lastUpdated: int,
    enabled: bool,
    bootstrapProperties: JsonObject,
    searchActionName: string,
    schemaPrefix: string)

  /** ASCII case folding, as `String.equalsIgnoreCase` applies it to Latin letters. */
  function LowerAscii(c: char): char {
    if 'A' <= c <= 'Z' then (c as int + 32) as char else c
  }

  predicate EqualsIgnoreCase(a: string, b: string) {
    |a| == |b| && forall i :: 0 <= i < |a| ==> LowerAscii(a[i]) == LowerAscii(b[i])
  }

  /** org.json `optBoolean(key, default)`: a boolean, or the strings "true"/"false" in any
      case; anything else (absent, null, other kinds) gives the default. */
  function OptBoolean(job: JsonObject, key: string, default: bool): bool {
    if key !in job then default
    else match job[key]
      case JBool(b) => b
      case JStr(s) =>
        if EqualsIgnoreCase(s, "false") then false
        else if EqualsIgnoreCase(s, "true") then true
        else default
      case _ => default
  }

  /** org.json `optJSONObject(key)`: the value when it is an object, otherwise null. */
  function OptJsonObject(job: JsonObject, key: string): Option<JsonObject> {
    if key in job && job[key].JObj? then Some(job[key].fields) else None
  }

  /** org.json `optString(key)`: "" when the key is absent or null, the string itself for a
      string, and the value's `toString()` otherwise. The result is a Java reference, hence an
      `Option`, but it is never null. */
  function OptString(job: JsonObject, key: string, lib: JsonLib): (r: Option<string>)
    ensures r.Some?
    ensures key in job && job[key].JStr? ==> r.value == job[key].str
    ensures (key !in job || job[key] == JNull) ==> r.value == ""
    ensures key in job && !job[key].JStr? && !job[key].JNull? ==> r.value == lib.text(job[key])
  {
    if key !in job then Some("")
    else match job[key]
      case JNull => Some("")
      case JStr(s) => Some(s)
      case v => Some(lib.text(v))
  }

  /** `PluginSettings.from(job, lastUpdated)`: checks bootstrapProperties, then searchActionName,
      then schemaPrefix, and answers null (`None`) at the first one missing. Only the first check
      can fail: `optString` never yields null. */
  function From(job: JsonObject, lastUpdated: int, lib: JsonLib): (r: Option<PluginSettings>)
    ensures r.Some? <==> BootstrapKey in job && job[BootstrapKey].JObj?
    ensures r.Some? ==> r.value.lastUpdated == lastUpdated
    ensures r.Some? ==> JObj(r.value.bootstrapProperties) == job[BootstrapKey]
    ensures r.Some? && ActionKey in job && job[ActionKey].JStr? ==>
              r.value.searchActionName == job[ActionKey].str
    ensures r.Some? && PrefixKey in job && job[PrefixKey].JStr? ==>
              r.value.schemaPrefix == job[PrefixKey].str
    ensures r.Some? && (ActionKey !in job || job[ActionKey] == JNull) ==> r.value.searchActionName == ""
    ensures r.Some? && (PrefixKey !in job || job[PrefixKey] == JNull) ==> r.value.schemaPrefix == ""
    ensures r.Some? && ActionKey in job && !job[ActionKey].JStr? && !job[ActionKey].JNull? ==>
              r.value.searchActionName == lib.text(job[ActionKey])
    ensures r.Some? && PrefixKey in job && !job[PrefixKey].JStr? && !job[PrefixKey].JNull? ==>
              r.value.schemaPrefix == lib.text(job[PrefixKey])
    ensures r.Some? && (EnabledKey !in job || job[EnabledKey] == JNull) ==> r.value.enabled
    ensures r.Some? && EnabledKey in job && job[EnabledKey].JBool? ==>
              r.value.enabled == job[EnabledKey].b
    ensures r.Some? && EnabledKey in job && job[EnabledKey].JStr? ==>
              (EqualsIgnoreCase(job[EnabledKey].str, "false") ==> !r.value.enabled) &&
              (EqualsIgnoreCase(job[EnabledKey].str, "true") ==> r.value.enabled)
    ensures r.Some? && EnabledKey in job && !job[EnabledKey].JBool? &&
            !(job[EnabledKey].JStr? && (EqualsIgnoreCase(job[EnabledKey].str, "false") ||
                                        EqualsIgnoreCase(job[EnabledKey].str, "true"))) ==>
              r.value.enabled
  {
    var enabled := OptBoolean(job, EnabledKey, true);
    var bootstrap := OptJsonObject(job, BootstrapKey);
    if bootstrap.None? then None
    else
      var action := OptString(job, ActionKey, lib);
      if action.None? then None
      else
        var prefix := OptString(job, PrefixKey, lib);
        if prefix.None? then None
        else Some(PluginSettings(lastUpdated, enabled, bootstrap.value, action.value, prefix.value))
  }

  /** `asMap()`: the bean's getters as a map; `getLastUpdated` is marked ignored. */
  function AsMap(s: PluginSettings): (m: JsonObject)
    ensures m.Keys == {EnabledKey, BootstrapKey, ActionKey, PrefixKey}
    ensures m[EnabledKey].JBool? && m[BootstrapKey].JObj? && m[ActionKey].JStr? && m[PrefixKey].JStr?
  {
    map[EnabledKey := JBool(s.enabled),
        BootstrapKey := JObj(s.bootstrapProperties),
        ActionKey := JStr(s.searchActionName),
        PrefixKey := JStr(s.schemaPrefix)]
  }

  /** The flat map loses exactly the version: two snapshots give the same map if and only if
      they differ at most in `lastUpdated`. */
  lemma AsMapForgetsOnlyVersion(a: PluginSettings, b: PluginSettings)
    ensures AsMap(a) == AsMap(b) <==> a.(lastUpdated := b.lastUpdated) == b
  {
    if AsMap(a) == AsMap(b) {
      assert AsMap(a)[EnabledKey] == AsMap(b)[EnabledKey];
      assert AsMap(a)[BootstrapKey] == AsMap(b)[BootstrapKey];
      assert AsMap(a)[ActionKey] == AsMap(b)[ActionKey];
      assert AsMap(a)[PrefixKey] == AsMap(b)[PrefixKey];
    }
  }

  /** Reading back what `asMap` exposes, at the snapshot's own version, gives the snapshot. */
  lemma FromAsMapRoundTrip(s: PluginSettings, lib: JsonLib)
    ensures From(AsMap(s), s.lastUpdated, lib) == Some(s)
  {
    var m := AsMap(s);
    assert m[EnabledKey] == JBool(s.enabled);
    assert OptBoolean(m, EnabledKey, true) == s.enabled;
  }
}

=== FILE: settings_cache.dfy ===
/** `SettingsService`: the node's cached settings snapshot and the rule that decides when it is
    reloaded from the two cluster-setting entries the plugin registers. */
module SettingsCache {
  import opened Options
  import opened Json
  import opened Settings

  const PluginName := "cedarling"
  /** Cluster-setting key of the JSON payload. */
  const SettingsKey := "plugins." + PluginName + ".settings"
  /** Cluster-setting key of the version (a millisecond timestamp). */
  const LastUpdatedKey := "plugins." + PluginName + ".updatedAt"

  /** The two entries as read from the cluster settings; either may be missing. */
  datatype Store = Store(updatedAt: Option<int>, payload: Option<string>)

  /** `getLastUpdated`: the stored version, 0 when the entry is missing. */
  function LastUpdated(store: Store): (v: int)
    ensures store.updatedAt.None? ==> v == 0
    ensures store.updatedAt.Some? ==> v == store.updatedAt.value
  {
    store.updatedAt.GetOr(0)
  }

  /** The cache after a reload, and the bootstrap properties handed to the policy engine's
      `init` if the reload reached that call. */
  datatype Reloaded = Reloaded(cache: Option<PluginSettings>, initWith: Option<JsonObject>)

  /** `reloadPluginSettings`. Every `Exception` is swallowed, so in the model a reload never
      fails; it may leave the cache as it was or overwrite it. A JVM `Error` escapes the
      `catch`, and that outcome is not modelled. */
  function Reload(cache: Option<PluginSettings>, store: Store, lib: JsonLib): (r: Reloaded)
    ensures r.cache != cache || r.initWith.Some? ==>
              0 < LastUpdated(store) && store.payload.Some? && lib.parse(store.payload.value).Some?
    ensures 0 < LastUpdated(store) && store.payload.Some? && lib.parse(store.payload.value).Some? ==>
              r.cache == From(lib.parse(store.payload.value).value, LastUpdated(store), lib)
    ensures r.initWith.Some? <==>
              0 < LastUpdated(store) && store.payload.Some? &&
              lib.parse(store.payload.value).Some? && r.cache.Some?
    ensures r.initWith.Some? ==>
              r.initWith.value == r.cache.value.bootstrapProperties &&
              r.cache.value.lastUpdated == LastUpdated(store)
  {
    var version := LastUpdated(store);
    if version <= 0 then Reloaded(cache, None)
    else if store.payload.None? then Reloaded(cache, None)
    else match lib.parse(store.payload.value)
      // the JSON parse throws before the assignment: the cache is untouched
      case None => Reloaded(cache, None)
      case Some(job) =>
        // the field is assigned even when `from` rejects the document; the null dereference
        // that follows on `init` is swallowed
        var loaded := From(job, version, lib);
        Reloaded(loaded, if loaded.Some? then Some(loaded.value.bootstrapProperties) else None)
  }

  /** One `getSettings` call: the value it returns (which is also the new cache), whether it
      reloaded, and what the reload handed to `init`. */
  datatype Step = Step(settings: Option<PluginSettings>, reloaded: bool, initWith: Option<JsonObject>)

  /** Reload when nothing is cached, or when the store holds a positive version strictly newer
      than the cached one; otherwise return the cache as it is. */
  predicate NeedsReload(cache: Option<PluginSettings>, store: Store) {
    cache.None? || (0 < LastUpdated(store) && cache.value.lastUpdated < LastUpdated(store))
  }

  function GetSettings(cache: Option<PluginSettings>, store: Store, lib: JsonLib): (r: Step)
    ensures r.reloaded <==>
              cache.None? ||
              (store.updatedAt.Some? && 0 < store.updatedAt.value &&
               cache.value.lastUpdated < store.updatedAt.value)
    ensures !r.reloaded ==> r.settings == cache && r.initWith.None?
    ensures r.reloaded ==>
              r.settings == Reload(cache, store, lib).cache &&
              r.initWith == Reload(cache, store, lib).initWith
  {
    if NeedsReload(cache, store) then
      var reloaded := Reload(cache, store, lib);
      Step(reloaded.cache, true, reloaded.initWith)
    else
      Step(cache, false, None)
  }

  /** Calling `getSettings` again against the same store returns what the first call returned:
      redundant reloads publish the same snapshot. */
  lemma GetSettingsIdempotent(cache: Option<PluginSettings>, store: Store, lib: JsonLib)
    ensures var first := GetSettings(cache, store, lib);
            GetSettings(first.settings, store, lib).settings == first.settings
  {
    var first := GetSettings(cache, store, lib);
    var again := GetSettings(first.settings, store, lib);
    if first.reloaded && again.reloaded {
      if 0 < LastUpdated(store) && store.payload.Some? && lib.parse(store.payload.value).Some? {
        var job := lib.parse(store.payload.value).value;
        assert first.settings == From(job, LastUpdated(store), lib);
        assert again.settings == From(job, LastUpdated(store), lib);
      } else {
        assert again.settings == first.settings;
      }
    }
  }

  /** The cached version never goes backwards while a snapshot stays cached. */
  lemma CachedVersionNeverDecreases(cache: Option<PluginSettings>, store: Store, lib: JsonLib)
    requires cache.Some?
    ensures var r := GetSettings(cache, store, lib);
            r.settings.Some? ==> cache.value.lastUpdated <= r.settings.value.lastUpdated
  {
    var r := GetSettings(cache, store, lib);
    if r.reloaded && r.settings.Some? && r.settings != cache {
      assert r.settings == Reload(cache, store, lib).cache;
      var job := lib.parse(store.payload.value).value;
      assert r.settings == From(job, LastUpdated(store), lib);
    }
  }

  /** A newer payload that parses but that `from` rejects drops the cached snapshot: the cache
      becomes null instead of keeping the old settings, and nothing is handed to `init`. */
  lemma RejectedPayloadDropsSnapshot(cache: Option<PluginSettings>, store: Store, lib: JsonLib)
    requires NeedsReload(cache, store) && 0 < LastUpdated(store) && store.payload.Some?
    requires lib.parse(store.payload.value).Some?
    requires From(lib.parse(store.payload.value).value, LastUpdated(store), lib).None?
    ensures GetSettings(cache, store, lib) == Step(None, true, None)
  {
  }

  /** A newer payload that is not a JSON object leaves the cached snapshot in place. */
  lemma MalformedPayloadKeepsSnapshot(cache: Option<PluginSettings>, store: Store, lib: JsonLib)
    requires store.payload.Some? && lib.parse(store.payload.value).None?
    ensures GetSettings(cache, store, lib).settings == cache
    ensures GetSettings(cache, store, lib).initWith.None?
  {
  }

  /** The process-wide holder of the cache (the `SettingsService` singleton). */
  class SettingsService {
    var pluginSettings: Option<PluginSettings>

    constructor ()
      ensures pluginSettings.None?
    {
      pluginSettings := None;
    }

    /** `getSettings()` on the singleton. */
    method Current(store: Store, lib: JsonLib) returns (settings: Option<PluginSettings>)
      modifies this
      ensures settings == pluginSettings
      ensures pluginSettings == GetSettings(old(pluginSettings), store, lib).settings
    {
      var step := GetSettings(pluginSettings, store, lib);
      pluginSettings := step.settings;
      settings := pluginSettings;
    }
  }
}
